=== FILE: README.md ===
# Authentication UI flow: password strength, form rules and submit flows

A Dafny model of the decision logic of a front-end authentication scaffold
(login, signup and reset-password pages). The model covers:

- **Password strength** (`PasswordStrength`, `StrengthIndicator`). A pure
  score from 0 to 4: the empty password scores 0 and a short one is capped
  at 1. A password of eight or more characters scores 1, plus 1 for mixing
  upper and lower case, 1 for a digit and 1 for a symbol. The indicator
  turns the score into four bars and a caption.
- **Form validation** (`AuthForm`, `ResetPasswordPage`). The login and
  signup schemas, the choice of schema by mode, and the reset-password
  schema. Each gives the message a field shows, or no message.
- **The shared form's state-dependent rendering** (`AuthForm`): the
  show-password toggle, when the strength indicator is shown, the submit
  button and the footer link.
- **Submit flows** (`LoginPage`, `SignUpPage`, `ResetPasswordPage`). Each
  page is a state machine over its flags (`isLoading` / `isSubmitting`, the
  error banner, the terms checkbox), the route it navigated to and its last
  toast. A simulated network delay is a separate `DelayElapsed` event that
  carries the work the timer callback does.
- **Initials** (`Header`): `getInitials` splits at spaces, keeps the first
  character of each piece and upper-cases the result.

Whether an e-mail address is acceptable is a parameter
`emailValid: string -> bool` of every member that needs it. It stands for
two checks together: the browser's own check on the `type="email"` input,
which runs before any submit event, and the validation library's `.email()`
rule.

Each page's `Step` lets a submission through only when the submit button
is enabled, the browser's e-mail check passes and the form's schema accepts
the values. Only then does the form library call the page's handler. Each page has an invariant (`Valid`): a
request is pending exactly while the spinner shows. Each page has a lemma
that every event preserves it, and an end-to-end lemma for one full attempt.

## Model

| member | source | states |
|---|---|---|
| PasswordStrength.ClassOf | src/components/PasswordStrengthIndicator.tsx:29-32 | every character lies in exactly one of the four classes `[A-Z]`, `[a-z]`, `[0-9]`, `[^A-Za-z0-9]` |
| PasswordStrength.Test | src/components/PasswordStrengthIndicator.tsx:29-32 | the scanning regular-expression test is true exactly when some character of the string is in the class |
| PasswordStrength.ChecksOf | src/components/PasswordStrengthIndicator.tsx:27-33 | the five checks mean: length at least 8, and the presence of an upper-case letter, a lower-case letter, a digit and a symbol |
| PasswordStrength.Evaluate | src/components/PasswordStrengthIndicator.tsx:24-46 | the score is at most 4; it is 0 exactly for the empty password; a non-empty password under 8 characters scores 1; a longer one scores at least 1 |
| PasswordStrength.LongScoreCountsCriteria | src/components/PasswordStrengthIndicator.tsx:38-45 | a password of 8 or more characters scores the number of strength criteria it meets (length, mixed case, digit, symbol) |
| PasswordStrength.ScoreByCriteria | src/components/PasswordStrengthIndicator.tsx:24-46 | the whole rule against the criteria: 0 when empty, 1 when short whatever the characters, otherwise the criteria count, which lies in 1..4 |
| PasswordStrength.CasePointNeedsBothCases | src/components/PasswordStrengthIndicator.tsx:41 | a long password earns the case point exactly when it has both an upper- and a lower-case letter; with only one case it scores at most 3 |
| PasswordStrength.AppendNeverLowers | src/components/PasswordStrengthIndicator.tsx:24-46 | appending any characters to any password never lowers its score: the empty password scores 0, a short one 1, and a long one keeps every class it has |
| PasswordStrength.ShortCapIsNotMonotone | src/components/PasswordStrengthIndicator.tsx:28-36 | "Ab1!" has all four classes and scores 1, while "abcdefgh1" has neither an upper-case letter nor a symbol and scores 2 |
| PasswordStrength.SingleCaseExample | src/components/PasswordStrengthIndicator.tsx:38-45 | "Abcdefg1!" scores 4 and "ABCDEFG1!" scores 3 |
| StrengthIndicator.Label | src/components/PasswordStrengthIndicator.tsx:50 | every positive score has a non-empty label |
| StrengthIndicator.LabelsDistinguishScores | src/components/PasswordStrengthIndicator.tsx:50 | different scores have different labels |
| StrengthIndicator.Bars | src/components/PasswordStrengthIndicator.tsx:71-81 | four bars; bar i+1 is filled exactly when the score reaches i+1, in the score's colour |
| StrengthIndicator.Render | src/components/PasswordStrengthIndicator.tsx:68-88 | in terms of the password: bar i+1 is filled iff the score is at least i+1; a caption is shown iff the password is non-empty, and its text and colour are the score's entries in the label and text-colour tables |
| StrengthIndicator.FilledPrefix | src/components/PasswordStrengthIndicator.tsx:71-81 | the first n bars for score s hold min(s, n) filled bars |
| StrengthIndicator.FilledBarsAreScore | src/components/PasswordStrengthIndicator.tsx:71-81 | the number of filled bars equals the password's score |
| AuthForm.SchemaFor | src/components/AuthForm.tsx:59-60 | login mode validates with the login schema and signup mode with the signup schema |
| AuthForm.Validate | src/components/AuthForm.tsx:34-43 | each field carries its message exactly when its rule fails: a valid e-mail; a password of at least 1 (login) or 8 (signup) characters; a name of at least 2 characters, checked only by the signup schema |
| AuthForm.LoginAcceptance | src/components/AuthForm.tsx:34-37 | a login form is accepted iff the e-mail is valid and the password is non-empty |
| AuthForm.SignupAcceptance | src/components/AuthForm.tsx:39-43 | a signup form is accepted iff the name has at least 2 characters, the e-mail is valid and the password has at least 8 |
| AuthForm.SignupPasswordUncapped | src/components/AuthForm.tsx:39-43 | an accepted signup password is never capped: its score is its criteria count, in 1..4 |
| AuthForm.TogglePassword | src/components/AuthForm.tsx:134 | the eye button flips password visibility and changes nothing else |
| AuthForm.ToggleTwiceRestores | src/components/AuthForm.tsx:127-136 | one press switches the input between masked and plain and changes the button's label; two presses restore the form |
| AuthForm.Render | src/components/AuthForm.tsx:84-168 | the name field shows only in signup mode; a link to /forgot-password shows only in login mode; the input is plain text iff the password is shown, and the eye button reads "Hide password" then, "Show password" otherwise; the strength indicator shows iff signup mode and a non-empty password; the button is disabled and spins iff loading; the footer links to /sign-up in login mode and to / in signup mode |
| AuthForm.FooterLinksSwapModes | src/components/AuthForm.tsx:167-168 | the two modes have different footer links and button texts |
| AuthForm.ShownIndicatorHasCaption | src/components/AuthForm.tsx:147-149 | whenever the form shows the strength indicator, the indicator's caption is shown too, because the score is at least 1 |
| LoginPage.BeginLogin | src/pages/LoginPage.tsx:22-27 | starting a login shows the spinner, clears the error and schedules the decision without navigating |
| LoginPage.FinishLogin | src/pages/LoginPage.tsx:29-39 | after the delay the spinner is off; only the test credentials navigate to /dashboard and keep the error clear; any other values set the invalid-credentials error and do not navigate; the toast reports success iff the credentials match |
| LoginPage.Step | src/pages/LoginPage.tsx:21-41 | a submission while loading or with values the login schema rejects changes nothing; an enabled, accepted submission runs the handler's first part (spinner on, error cleared, decision pending); a pending delay runs the credential decision; a delay with nothing pending changes nothing |
| LoginPage.InitialValid | src/pages/LoginPage.tsx:16-17 | the freshly loaded page is idle with no error |
| LoginPage.StepPreservesValid | src/pages/LoginPage.tsx:21-41 | every event keeps "pending iff loading, no error while loading" |
| LoginPage.LoginAttempt | src/pages/LoginPage.tsx:21-41 | between submission and delay the spinner shows with the old error cleared and the page unmoved; the full attempt ends with the spinner off, on /dashboard iff the credentials are the test pair, otherwise staying put with the invalid-credentials error |
| LoginPage.TestCredentialsPassSchema | src/pages/LoginPage.tsx:29 | the test credentials pass the login schema whenever the test address is a valid e-mail, so the success branch is reachable |
| SignUpPage.SetTerms | src/pages/SignUpPage.tsx:64-69 | the terms checkbox takes the clicked value when idle and ignores clicks while loading |
| SignUpPage.HandleSignUp | src/pages/SignUpPage.tsx:28-35 | without agreed terms the handler raises the terms error toast and leaves the loading flag and the route alone; with them it starts loading |
| SignUpPage.ResumeSignUp | src/pages/SignUpPage.tsx:37-46 | after the delay the spinner is off, the success toast is raised and the page navigates to /dashboard |
| SignUpPage.Step | src/pages/SignUpPage.tsx:28-47 | a submission while loading or with values the signup schema rejects changes nothing; an enabled, accepted submission runs the handler's terms gate and spinner; a pending delay runs the success completion; a delay with nothing pending changes nothing |
| SignUpPage.InitialValid | src/pages/SignUpPage.tsx:25-26 | the freshly loaded page is idle with the terms unticked |
| SignUpPage.StepPreservesValid | src/pages/SignUpPage.tsx:28-69 | every event keeps "pending iff loading, and loading only with the terms agreed" |
| SignUpPage.TermsFrozenWhileLoading | src/pages/SignUpPage.tsx:64-69 | while loading, no click or submission changes the terms or stops the spinner |
| SignUpPage.SignUpAttempt | src/pages/SignUpPage.tsx:28-47 | after submission the spinner shows iff the terms were agreed, and the page has not moved; the full attempt reaches /dashboard iff the terms were agreed; otherwise the page stays idle with the terms error toast |
| ResetPasswordPage.Validate | src/pages/ResetPasswordPage.tsx:34-42 | the password field shows the too-short message iff the password has fewer than 8 characters; the confirmation field shows "Passwords don't match" iff the two differ; no other field has a message |
| ResetPasswordPage.Acceptance | src/pages/ResetPasswordPage.tsx:34-42 | the form is accepted iff the password has at least 8 characters and equals its confirmation |
| ResetPasswordPage.AcceptanceSymmetric | src/pages/ResetPasswordPage.tsx:34-42 | acceptance does not depend on which box holds which copy |
| ResetPasswordPage.AcceptedPasswordUncapped | src/pages/ResetPasswordPage.tsx:34-42 | an accepted new password scores its criteria count, and its confirmation scores the same, at least 1 |
| ResetPasswordPage.InitialValid | src/pages/ResetPasswordPage.tsx:47 | the freshly loaded page is not submitting and has no pending request |
| ResetPasswordPage.OnSubmit | src/pages/ResetPasswordPage.tsx:64-68 | submitting sets the submitting flag and schedules completion without navigating |
| ResetPasswordPage.Complete | src/pages/ResetPasswordPage.tsx:69-77 | completion clears the submitting flag, raises the success toast and navigates to /dashboard; there is no failure branch |
| ResetPasswordPage.Button | src/pages/ResetPasswordPage.tsx:121-124 | the button is disabled, spins and reads "Updating..." exactly while submitting |
| ResetPasswordPage.Step | src/pages/ResetPasswordPage.tsx:64-78 | a submission while submitting or with rejected values changes nothing; an enabled, accepted submission sets the submitting flag and schedules completion; a pending delay runs the completion; a delay with nothing pending changes nothing |
| ResetPasswordPage.StepPreservesValid | src/pages/ResetPasswordPage.tsx:64-78 | every event keeps "pending iff submitting", so the button is disabled exactly while a request is pending |
| ResetPasswordPage.ResetAlwaysSucceeds | src/pages/ResetPasswordPage.tsx:64-78 | from an idle page, an accepted submission disables the button and leaves the page unmoved until the delay, and then always ends on /dashboard with the button enabled again |
| Header.Split | src/components/layout/Header.tsx:44 | splitting gives at least one piece and no piece contains a space |
| Header.JoinSplit | src/components/layout/Header.tsx:44 | joining the pieces with single spaces gives the name back |
| Header.Heads | src/components/layout/Header.tsx:44 | taking each piece's first character, with an empty piece contributing nothing, yields one character per non-empty piece |
| Header.HeadsLength | src/components/layout/Header.tsx:44 | taking first characters yields one character per non-empty piece |
| Header.HeadsHaveNoSpace | src/components/layout/Header.tsx:44 | first characters of space-free pieces contain no space |
| Header.HeadsConcat | src/components/layout/Header.tsx:44 | first characters distribute over concatenation of piece lists |
| Header.Upper | src/components/layout/Header.tsx:44 | upper-casing maps each letter a-z to its capital, 32 code points lower, and leaves every other character unchanged; so the length and the spaces are kept and no a-z remains |
| Header.UpperFixesCapitals | src/components/layout/Header.tsx:44 | a string with no a-z letter is its own upper-case form, so upper-casing twice equals upper-casing once |
| Header.GetInitials | src/components/layout/Header.tsx:43-45 | the initials have one character per non-empty piece, contain no space and are unchanged by upper-casing again |
| Header.HeadsAreWordStarts | src/components/layout/Header.tsx:44 | the first characters of the pieces are exactly the characters that start a word (non-space, at the front or after a space), in order |
| Header.InitialsAreWordStarts | src/components/layout/Header.tsx:43-45 | the initials are the upper-cased word-start characters of the name |
| Header.InitialsOfEmptyName | src/components/layout/Header.tsx:44 | the empty name has empty initials |
| Header.SplitTrailingSpace | src/components/layout/Header.tsx:44 | a trailing space adds exactly one empty piece at the end |
| Header.OuterSpacesIgnored | src/components/layout/Header.tsx:44 | a leading or trailing space does not change the initials |

## Left out

- Rendering, memoisation, `console.log` calls, CSS class strings beyond the indicator's colour tables, icons and static text.
- Timers: each delay is one `DelayElapsed` event. Only one request can be in flight because the submit button is disabled while loading. Cancelling a pending timer is not implemented in the source either.
- `navigate` and the router: the model records the target route in a `navigation` field. Toasts: only the last toast's kind and title are recorded, not its description.
- E-mail validity: `emailValid` is left uninterpreted. It stands for "both the browser's `type="email"` check and the validation library's `.email()` rule accept the address". The form has no `noValidate`, so when the browser's check fails no submit event fires, and no `Validate` message appears. `Validate`'s field messages appear only once the browser's check has passed. The two rules differ: a domain label ending in `-` passes `.email()` but not the browser's check. The model does not separate the tooltip case from the field-message case.
- How the validation library combines a failed length rule with the reset form's equality refinement: the model reports each rule independently.
- Strings are sequences of whole characters, not UTF-16 code units. This changes lengths, and it changes indexing: for a piece that starts with a character outside the Basic Multilingual Plane (an emoji, say), `n[0]` in the source yields a lone surrogate, while the model takes the whole character. Upper-casing maps only `a`-`z`. Full Unicode case mapping, which can change length, is not modelled.
- Header.GetInitials: the length property is stated for the ASCII upper-casing above. JavaScript's full Unicode `toUpperCase` can lengthen a string (`ß` becomes `SS`), so the length property holds only for the ASCII mapping. The no-space property survives, because no Unicode upper-case mapping yields a space.
- The signup page's own local schema is used only for typing the handler's argument; values reach the handler through the form's signup schema, which is what `SignUpPage.Step` checks.
- The "indeterminate" state of the terms checkbox. The model assumes the checkbox reports only true or false. `checked as boolean` is a type assertion with no run-time effect, so a truthy "indeterminate" value would pass the terms gate.
- `Footer.tsx` (a clock read), `DashboardPage.tsx` (a fixed mock user, a toast on mount, an empty logout handler), `ForgotPasswordPage.tsx` (an e-mail check and a flag set after a timer) and the header's logout handler: they have no decision logic beyond what is modelled above.

=== FILE: auth_form.dfy ===
/** The shared login/signup form: the two validation schemas, the choice
    of schema by mode, and the parts of the rendered form that depend on
    state (the show-password toggle, the strength indicator, the submit
    button and the footer link).

    Whether an e-mail address is acceptable enters every member here as the
    parameter `emailValid`: it holds when both the browser's check on the
    `type="email"` input and the validation library's `.email()` rule
    accept the address. */
module AuthForm {
  import opened Common
  import opened PasswordStrength
  import StrengthIndicator

  datatype Mode = Login | Signup

  /** The values the form submits. Login mode has no name field; its
      schema ignores `name`. */
  datatype Values = Values(name: string, email: string, password: string)

  datatype Schema = LoginSchema | SignupSchema

  const InvalidEmailMessage: string := "Invalid email address."
  const PasswordRequiredMessage: string := "Password is required."
  const NameTooShortMessage: string := "Name must be at least 2 characters."
  const PasswordTooShortMessage: string := "Password must be at least 8 characters."

  const MinNameLength: nat := 2
  const MinLoginPasswordLength: nat := 1
  const MinSignupPasswordLength: nat := 8

  /** The schema the form validates with in each mode. */
  function SchemaFor(mode: Mode): (schema: Schema)
    ensures schema == LoginSchema <==> mode == Login
    ensures schema == SignupSchema <==> mode == Signup
  {
    match mode
    case Login => LoginSchema
    case Signup => SignupSchema
  }

  /** A field error when `ok` fails. */
  function Check(ok: bool, field: Field, message: string): map<Field, string> {
    if ok then map[] else map[field := message]
  }

  /** The message each field shows after validation; an absent key means
      the field passed. */
  function Validate(schema: Schema, v: Values, emailValid: string -> bool): (errors: map<Field, string>)
    ensures Email in errors <==> !emailValid(v.email)
    ensures Email in errors ==> errors[Email] == InvalidEmailMessage
    ensures Name in errors <==> schema == SignupSchema && |v.name| < MinNameLength
    ensures Name in errors ==> errors[Name] == NameTooShortMessage
    ensures schema == LoginSchema ==>
              (Password in errors <==> |v.password| < MinLoginPasswordLength)
              && (Password in errors ==> errors[Password] == PasswordRequiredMessage)
    ensures schema == SignupSchema ==>
              (Password in errors <==> |v.password| < MinSignupPasswordLength)
              && (Password in errors ==> errors[Password] == PasswordTooShortMessage)
    ensures ConfirmPassword !in errors
  {
    match schema
    case LoginSchema =>
      Check(emailValid(v.email), Email, InvalidEmailMessage)
      + Check(|v.password| >= MinLoginPasswordLength, Password, PasswordRequiredMessage)
    case SignupSchema =>
      Check(|v.name| >= MinNameLength, Name, NameTooShortMessage)
      + Check(emailValid(v.email), Email, InvalidEmailMessage)
      + Check(|v.password| >= MinSignupPasswordLength, Password, PasswordTooShortMessage)
  }

  /** The form hands its values to the page only when validation leaves no error. */
  predicate Accepts(mode: Mode, v: Values, emailValid: string -> bool) {
    Validate(SchemaFor(mode), v, emailValid).Keys == {}
  }

  /** A login form is accepted exactly when the e-mail is valid and the password is non-empty. */
  lemma LoginAcceptance(v: Values, emailValid: string -> bool)
    ensures Accepts(Login, v, emailValid) <==> emailValid(v.email) && |v.password| >= 1
  {
  }

  /** A signup form is accepted exactly when the name has two characters, the
      e-mail is valid and the password has eight. */
  lemma SignupAcceptance(v: Values, emailValid: string -> bool)
    ensures Accepts(Signup, v, emailValid)
            <==> |v.name| >= MinNameLength && emailValid(v.email) && |v.password| >= MinSignupPasswordLength
  {
  }

  /** An accepted signup password is never subject to the short-password cap:
      it scores the number of quality criteria it meets. */
  lemma SignupPasswordUncapped(v: Values, emailValid: string -> bool)
    requires Accepts(Signup, v, emailValid)
    ensures Evaluate(v.password) == CountMet(v.password, AllCriteria)
    ensures 1 <= Evaluate(v.password) <= MaxScore
  {
    SignupAcceptance(v, emailValid);
    LongScoreCountsCriteria(v.password);
  }

  /** The state the form's rendering depends on. */
  datatype Form = Form(mode: Mode, showPassword: bool, isLoading: bool, password: string)

  /** The eye button flips password visibility and nothing else. */
  function TogglePassword(f: Form): (g: Form)
    ensures g.showPassword != f.showPassword
    ensures g.mode == f.mode && g.isLoading == f.isLoading && g.password == f.password
  {
    f.(showPassword := !f.showPassword)
  }

  /** The rendered parts of the form that depend on its state. */
  datatype View = View(
    showsNameField: bool,
    forgotPasswordLink: Option<string>,
    passwordInputType: string,
    toggleLabel: string,
    showsStrengthIndicator: bool,
    submitDisabled: bool,
    submitSpinner: bool,
    submitText: string,
    footerLink: string)

  function Render(f: Form): (v: View)
    ensures v.showsNameField <==> f.mode == Signup
    ensures v.forgotPasswordLink.Some? <==> f.mode == Login
    ensures v.forgotPasswordLink.Some? ==> v.forgotPasswordLink.value == ForgotPasswordPath
    ensures v.passwordInputType == (if f.showPassword then "text" else "password")
    ensures v.toggleLabel == (if f.showPassword then "Hide password" else "Show password")
    ensures v.showsStrengthIndicator <==> f.mode == Signup && |f.password| > 0
    ensures v.submitDisabled <==> f.isLoading
    ensures v.submitSpinner <==> f.isLoading
    ensures f.mode == Login ==> v.footerLink == SignUpPath && v.submitText == "Log In"
    ensures f.mode == Signup ==> v.footerLink == LoginPath && v.submitText == "Sign Up"
  {
    var isLoginMode := f.mode == Login;
    View(
      !isLoginMode,
      if isLoginMode then Some(ForgotPasswordPath) else None,
      if f.showPassword then "text" else "password",
      if f.showPassword then "Hide password" else "Show password",
      !isLoginMode && f.password != "",
      f.isLoading,
      f.isLoading,
      if isLoginMode then "Log In" else "Sign Up",
      if isLoginMode then SignUpPath else LoginPath)
  }

  /** The footer link always leads to the other mode's page, so the two
      modes link to each other. */
  lemma FooterLinksSwapModes(f: Form, g: Form)
    requires f.mode != g.mode
    ensures Render(f).footerLink != Render(g).footerLink
    ensures Render(f).submitText != Render(g).submitText
  {
  }

  /** One press switches the password input between masked and plain and
      swaps the button's label; a second press restores the form. */
  lemma ToggleTwiceRestores(f: Form)
    ensures Render(TogglePassword(f)).passwordInputType != Render(f).passwordInputType
    ensures Render(TogglePassword(f)).toggleLabel != Render(f).toggleLabel
    ensures TogglePassword(TogglePassword(f)) == f
  {
  }

  /** Whenever the strength indicator is shown its caption is shown too: the
      password it is given is never empty, so the score is never 0. */
  lemma ShownIndicatorHasCaption(f: Form)
    requires Render(f).showsStrengthIndicator
    ensures StrengthIndicator.Render(f.password).caption.Some?
    ensures Evaluate(f.password) >= 1
  {
  }
}

=== FILE: common.dfy ===
/** Vocabulary shared by the pages and forms of the authentication flow:
    an optional value, the form fields that can carry a validation message,
    the toast notifications the pages raise, and the routes they link or
    navigate to. */
module Common {

  /** A value that may be absent (the source's `null`). */
  datatype Option<+T> = None | Some(value: T)

  /** The form fields that a schema can attach a message to. */
  datatype Field = Name | Email | Password | ConfirmPassword

  /** A toast notification: its kind and its title text. */
  datatype ToastKind = Success | Failure
  datatype Toast = Toast(kind: ToastKind, title: string)

  /** Routes of the application. The login page lives at the root. */
  const LoginPath: string := "/"
  const SignUpPath: string := "/sign-up"
  const ForgotPasswordPath: string := "/forgot-password"
  const DashboardPath: string := "/dashboard"
}

=== FILE: header.dfy ===
/** The header's initials helper: a name is split at every space, the
    first character of each piece is kept (an empty piece contributes
    nothing), and the result is upper-cased. */
module Header {

  const Space: char := ' '

  /** `s.split(' ')`: the pieces between spaces, in order. Leading, trailing
      and repeated spaces give empty pieces; there is always at least one. */
  function Split(s: string): (parts: seq<string>)
    ensures |parts| >= 1
    ensures forall i :: 0 <= i < |parts| ==> Space !in parts[i]
  {
    if |s| == 0 then [""]
    else
      var rest := Split(s[1..]);
      if s[0] == Space then [""] + rest
      else [[s[0]] + rest[0]] + rest[1..]
  }

  /** `parts.join(' ')`. */
  function Join(parts: seq<string>): string {
    if |parts| == 0 then ""
    else if |parts| == 1 then parts[0]
    else parts[0] + [Space] + Join(parts[1..])
  }

  /** Splitting loses nothing: joining the pieces with spaces gives the name back. */
  lemma {:induction false} JoinSplit(s: string)
    ensures Join(Split(s)) == s
  {
    if |s| > 0 {
      var rest := Split(s[1..]);
      JoinSplit(s[1..]);
      if s[0] == Space {
        assert ([""] + rest)[1..] == rest;
        assert s == [Space] + s[1..];
      } else {
        var parts := [[s[0]] + rest[0]] + rest[1..];
        if |rest| == 1 {
          assert s == [s[0]] + rest[0];
        } else {
          assert parts[1..] == rest[1..];
          assert Join(rest) == rest[0] + [Space] + Join(rest[1..]);
          assert s == [s[0]] + s[1..];
        }
      }
    }
  }

  /** `parts.map(n => n[0]).join('')`: the first character of each piece.
      An empty piece yields `undefined`, which joins as nothing. */
  function Heads(parts: seq<string>): (r: string)
    ensures |r| == NonEmptyCount(parts)
  {
    if |parts| == 0 then ""
    else (if |parts[0]| == 0 then "" else [parts[0][0]]) + Heads(parts[1..])
  }

  /** Number of non-empty pieces. */
  function NonEmptyCount(parts: seq<string>): nat {
    if |parts| == 0 then 0
    else (if |parts[0]| == 0 then 0 else 1) + NonEmptyCount(parts[1..])
  }

  lemma {:induction false} HeadsLength(parts: seq<string>)
    ensures |Heads(parts)| == NonEmptyCount(parts)
  {
    if |parts| > 0 {
      HeadsLength(parts[1..]);
    }
  }

  lemma {:induction false} HeadsHaveNoSpace(parts: seq<string>)
    requires forall i :: 0 <= i < |parts| ==> Space !in parts[i]
    ensures Space !in Heads(parts)
  {
    if |parts| > 0 {
      HeadsHaveNoSpace(parts[1..]);
      if |parts[0]| > 0 {
        assert parts[0][0] in parts[0];
      }
    }
  }

  lemma {:induction false} HeadsConcat(a: seq<string>, b: seq<string>)
    ensures Heads(a + b) == Heads(a) + Heads(b)
  {
    if |a| > 0 {
      HeadsConcat(a[1..], b);
      assert (a + b)[1..] == a[1..] + b;
    } else {
      assert a + b == b;
    }
  }

  /** ASCII upper-casing of one character. */
  function UpperChar(c: char): char {
    if 'a' <= c <= 'z' then (c as int - 32) as char else c
  }

  /** `s.toUpperCase()` on ASCII letters: each lower-case letter becomes its
      capital, 32 code points below it, and every other character stays. */
  function Upper(s: string): (r: string)
    ensures |r| == |s|
    ensures forall i :: 0 <= i < |s| ==>
              ('a' <= s[i] <= 'z' ==> r[i] as int == s[i] as int - 32)
              && (!('a' <= s[i] <= 'z') ==> r[i] == s[i])
    ensures forall i :: 0 <= i < |s| ==> !('a' <= r[i] <= 'z')
    ensures forall i :: 0 <= i < |s| ==> (r[i] == Space <==> s[i] == Space)
  {
    seq(|s|, i requires 0 <= i < |s| => UpperChar(s[i]))
  }

  /** A string without lower-case letters is its own upper-case form; in
      particular upper-casing twice is the same as once. */
  lemma UpperFixesCapitals(s: string)
    requires forall i :: 0 <= i < |s| ==> !('a' <= s[i] <= 'z')
    ensures Upper(s) == s
    ensures Upper(Upper(s)) == Upper(s)
  {
  }

  /** The initials of a name. */
  function GetInitials(name: string): (r: string)
    ensures |r| == NonEmptyCount(Split(name))
    ensures Space !in r
    ensures Upper(r) == r
  {
    var parts := Split(name);
    HeadsLength(parts);
    HeadsHaveNoSpace(parts);
    var heads := Heads(parts);
    var r := Upper(heads);
    UpperFixesCapitals(r);
    assert Space !in r by {
      forall i | 0 <= i < |r| ensures r[i] != Space {
        assert heads[i] in heads;
      }
    }
    r
  }

  // An independent description of the initials: the characters that start
  // a word, that is, non-space characters at the front or after a space.

  predicate IsWordStart(s: string, i: int)
    requires 0 <= i < |s|
  {
    s[i] != Space && (i == 0 || s[i - 1] == Space)
  }

  /** The word-starting characters of `s` at positions `i` and beyond, in order. */
  function WordStartsFrom(s: string, i: nat): string
    decreases |s| - i
  {
    if i >= |s| then ""
    else (if IsWordStart(s, i) then [s[i]] else "") + WordStartsFrom(s, i + 1)
  }

  lemma {:induction false} WordStartsShift(c: char, t: string, i: nat)
    requires i >= 1
    ensures WordStartsFrom([c] + t, i + 1) == WordStartsFrom(t, i)
    decreases |t| - i
  {
    if i < |t| {
      WordStartsShift(c, t, i + 1);
      assert ([c] + t)[i + 1] == t[i] && ([c] + t)[i] == t[i - 1];
    }
  }

  lemma WordStartsAfterSpace(t: string)
    ensures WordStartsFrom([Space] + t, 1) == WordStartsFrom(t, 0)
  {
    if |t| > 0 {
      WordStartsShift(Space, t, 1);
      assert ([Space] + t)[1] == t[0];
    }
  }

  /** The pieces' first characters are exactly the word starts; the second
      clause covers the pieces after the first when the first is non-empty. */
  lemma {:induction false} HeadsAreWordStarts(s: string)
    ensures Heads(Split(s)) == WordStartsFrom(s, 0)
    ensures |s| > 0 && s[0] != Space ==> Heads(Split(s)[1..]) == WordStartsFrom(s, 1)
    decreases |s|
  {
    if |s| > 0 {
      var c, t := s[0], s[1..];
      assert s == [c] + t;
      var P := Split(t);
      HeadsAreWordStarts(t);
      if c == Space {
        assert ([""] + P)[1..] == P;
        WordStartsAfterSpace(t);
      } else {
        // The pieces after the first one of s.
        assert Split(s)[1..] == P[1..];
        if |t| > 0 {
          var d, u := t[0], t[1..];
          assert t == [d] + u;
          WordStartsShift(c, t, 1);
          if d == Space {
            assert P[1..] == Split(u);
            HeadsAreWordStarts(u);
            WordStartsAfterSpace(u);
          }
        }
      }
    }
  }

  /** The initials are the upper-cased word starts of the name. */
  lemma InitialsAreWordStarts(name: string)
    ensures GetInitials(name) == Upper(WordStartsFrom(name, 0))
  {
    HeadsAreWordStarts(name);
  }

  lemma InitialsOfEmptyName()
    ensures GetInitials("") == ""
  {
  }

  /** Spaces at either end of the name change nothing: the empty pieces they
      create contribute no character. */
  lemma {:induction false} SplitTrailingSpace(s: string)
    ensures Split(s + [Space]) == Split(s) + [""]
  {
    if |s| > 0 {
      assert (s + [Space])[1..] == s[1..] + [Space];
      SplitTrailingSpace(s[1..]);
    } else {
      assert Split([Space]) == [""] + Split([]);
    }
  }

  lemma OuterSpacesIgnored(name: string)
    ensures GetInitials([Space] + name) == GetInitials(name)
    ensures GetInitials(name + [Space]) == GetInitials(name)
  {
    assert ([Space] + name)[1..] == name;
    HeadsConcat([""], Split(name));
    SplitTrailingSpace(name);
    HeadsConcat(Split(name), [""]);
  }
}

=== FILE: login_page.dfy ===
/** The login page: a submitted form starts a simulated request, and when
    its delay elapses the single hard-coded credential pair is accepted and
    everything else is rejected with an error banner. */
module LoginPage {
  import opened Common
  import AuthForm

  const TestEmail: string := "test@example.com"
  const TestPassword: string := "password123"
  const InvalidCredentialsMessage: string := "Invalid email or password. Please try again."
  const LoginFailedTitle: string := "Login Failed"
  const LoginSucceededTitle: string := "Login Successful!"

  /** Page state. `pending` holds the values of a request whose delay has
      not yet elapsed; `navigation` is the route the page navigated to, if
      any; `toast` is the last notification raised. */
  datatype Page = Page(
    isLoading: bool,
    error: Option<string>,
    pending: Option<AuthForm.Values>,
    navigation: Option<string>,
    toast: Option<Toast>)

  const Initial: Page := Page(false, None, None, None, None)

  /** The only credentials the simulated back end accepts. */
  predicate Authentic(v: AuthForm.Values) {
    v.email == TestEmail && v.password == TestPassword
  }

  /** The synchronous part of the submit handler: show the spinner, clear
      the previous error and schedule the decision. */
  function BeginLogin(p: Page, v: AuthForm.Values): (q: Page)
    ensures q.isLoading && q.error == None && q.pending == Some(v)
    ensures q.navigation == p.navigation && q.toast == p.toast
  {
    p.(isLoading := true, error := None, pending := Some(v))
  }

  /** The delayed part of the submit handler: the credential decision. */
  function FinishLogin(p: Page, v: AuthForm.Values): (q: Page)
    ensures !q.isLoading && q.pending == None
    ensures Authentic(v) ==> q.navigation == Some(DashboardPath) && q.error == p.error
    ensures !Authentic(v) ==> q.navigation == p.navigation && q.error == Some(InvalidCredentialsMessage)
    ensures q.toast.Some? && (q.toast.value.kind == Success <==> Authentic(v))
  {
    if v.email != TestEmail || v.password != TestPassword then
      p.(error := Some(InvalidCredentialsMessage),
         toast := Some(Toast(Failure, LoginFailedTitle)),
         isLoading := false,
         pending := None)
    else
      p.(toast := Some(Toast(Success, LoginSucceededTitle)),
         isLoading := false,
         pending := None,
         navigation := Some(DashboardPath))
  }

  /** What can happen on the page: the user submits the form, or the
      simulated request's delay elapses. */
  datatype Event = Submit(values: AuthForm.Values) | DelayElapsed

  /** One event. A submission reaches the handler only when the submit button
      is enabled and the e-mail and the login schema are accepted; otherwise
      the page is unchanged. */
  function Step(p: Page, e: Event, emailValid: string -> bool): (q: Page)
    ensures e.Submit? && (p.isLoading || !AuthForm.Accepts(AuthForm.Login, e.values, emailValid)) ==> q == p
    ensures e.DelayElapsed? && p.pending == None ==> q == p
    ensures e.Submit? && !p.isLoading && AuthForm.Accepts(AuthForm.Login, e.values, emailValid)
            ==> q == BeginLogin(p, e.values)
    ensures e.DelayElapsed? && p.pending.Some? ==> q == FinishLogin(p, p.pending.value)
  {
    match e
    case Submit(v) =>
      if AuthForm.Render(AuthForm.Form(AuthForm.Login, false, p.isLoading, v.password)).submitDisabled then p
      else if !AuthForm.Accepts(AuthForm.Login, v, emailValid) then p
      else BeginLogin(p, v)
    case DelayElapsed =>
      match p.pending
      case None => p
      case Some(v) => FinishLogin(p, v)
  }

  /** The page's invariant: a request is pending exactly while the spinner
      shows, and no error is shown while one is pending. */
  predicate Valid(p: Page) {
    (p.isLoading <==> p.pending.Some?) && (p.isLoading ==> p.error == None)
  }

  lemma InitialValid()
    ensures Valid(Initial)
  {
  }

  lemma StepPreservesValid(p: Page, e: Event, emailValid: string -> bool)
    requires Valid(p)
    ensures Valid(Step(p, e, emailValid))
  {
  }

  /** A full attempt from an idle page: submitting accepted values and
      waiting for the delay ends with the spinner off, and the page reaches
      the dashboard exactly when the credentials are the test pair; otherwise
      it stays put and shows the error. Between the two events the spinner
      shows, the old error is cleared and the page has not moved. */
  lemma LoginAttempt(p: Page, v: AuthForm.Values, emailValid: string -> bool)
    requires Valid(p) && !p.isLoading && p.navigation == None
    requires AuthForm.Accepts(AuthForm.Login, v, emailValid)
    ensures var m := Step(p, Submit(v), emailValid);
            m.isLoading && m.pending == Some(v) && m.error == None && m.navigation == p.navigation
    ensures var q := Step(Step(p, Submit(v), emailValid), DelayElapsed, emailValid);
            && Valid(q)
            && !q.isLoading
            && (q.navigation == Some(DashboardPath) <==> Authentic(v))
            && (q.navigation == None <==> !Authentic(v))
            && (q.error == None <==> Authentic(v))
            && (q.error.Some? ==> q.error.value == InvalidCredentialsMessage)
  {
  }

  /** The test credentials pass the login schema whenever the e-mail check
      accepts the test address, so the success branch is reachable. */
  lemma TestCredentialsPassSchema(name: string, emailValid: string -> bool)
    requires emailValid(TestEmail)
    ensures AuthForm.Accepts(AuthForm.Login, AuthForm.Values(name, TestEmail, TestPassword), emailValid)
  {
  }
}

=== FILE: password_strength.dfy ===
/** The password-strength heuristic of the strength indicator: a total map
    from a password to a score in 0..4. An empty password scores 0; a
    non-empty password shorter than eight characters is capped at 1; a
    longer one scores one point for its length, one for mixing upper and
    lower case, one for a digit and one for a symbol. */
module PasswordStrength {

  /** Minimum length for a password to be scored on its character variety. */
  const MinLength: nat := 8

  /** Highest score the heuristic gives. */
  const MaxScore: nat := 4

  /** The four character classes the heuristic looks for. */
  datatype CharClass = Upper | Lower | Digit | Symbol

  /** Membership in the regular-expression class behind each test:
      `[A-Z]`, `[a-z]`, `[0-9]` and `[^A-Za-z0-9]`. */
  predicate InClass(c: char, k: CharClass) {
    match k
    case Upper => 'A' <= c <= 'Z'
    case Lower => 'a' <= c <= 'z'
    case Digit => '0' <= c <= '9'
    case Symbol => !('A' <= c <= 'Z' || 'a' <= c <= 'z' || '0' <= c <= '9')
  }

  /** The class of a character. Because a symbol is anything that is not an
      ASCII letter or digit, every character lies in exactly one class. */
  function ClassOf(c: char): (k: CharClass)
    ensures InClass(c, k)
    ensures forall k': CharClass :: InClass(c, k') ==> k' == k
  {
    if 'A' <= c <= 'Z' then Upper
    else if 'a' <= c <= 'z' then Lower
    else if '0' <= c <= '9' then Digit
    else Symbol
  }

  /** Some character of `s` lies in class `k`. */
  predicate Has(s: string, k: CharClass) {
    exists i :: 0 <= i < |s| && InClass(s[i], k)
  }

  /** The regular-expression test `/[class]/.test(s)`: a left-to-right scan
      that stops at the first character of the class. */
  function Test(s: string, k: CharClass): (found: bool)
    ensures found <==> Has(s, k)
  {
    if |s| == 0 then false
    else if InClass(s[0], k) then true
    else
      var rest := Test(s[1..], k);
      assert Has(s[1..], k) ==> Has(s, k) by {
        if Has(s[1..], k) {
          var j :| 0 <= j < |s[1..]| && InClass(s[1..][j], k);
          assert s[j + 1] == s[1..][j];
        }
      }
      assert Has(s, k) ==> Has(s[1..], k) by {
        if Has(s, k) {
          var j :| 0 <= j < |s| && InClass(s[j], k);
          assert j != 0;
          assert s[1..][j - 1] == s[j];
        }
      }
      rest
  }

  /** The five checks the heuristic computes before scoring. */
  datatype Checks = Checks(length: bool, uppercase: bool, lowercase: bool, number: bool, symbol: bool)

  function ChecksOf(pass: string): (c: Checks)
    ensures c.length <==> |pass| >= MinLength
    ensures c.uppercase <==> Has(pass, Upper)
    ensures c.lowercase <==> Has(pass, Lower)
    ensures c.number <==> Has(pass, Digit)
    ensures c.symbol <==> Has(pass, Symbol)
  {
    Checks(|pass| >= MinLength, Test(pass, Upper), Test(pass, Lower), Test(pass, Digit), Test(pass, Symbol))
  }

  /** One point when `b` holds. */
  function Point(b: bool): nat {
    if b then 1 else 0
  }

  /** The strength score of a password. */
  function Evaluate(pass: string): (score: nat)
    ensures score <= MaxScore
    ensures score == 0 <==> |pass| == 0
    ensures 0 < |pass| < MinLength ==> score == 1
    ensures |pass| >= MinLength ==> 1 <= score
  {
    if |pass| == 0 then 0
    else
      var checks := ChecksOf(pass);
      if !checks.length then 1
      else
        Point(checks.length)
        + Point(checks.uppercase && checks.lowercase)
        + Point(checks.number)
        + Point(checks.symbol)
  }

  // An independent statement of the rule: the score of a long password is
  // the number of quality criteria it meets.

  /** A quality criterion of the strength rule. Mixed case is one criterion, not two. */
  datatype Criterion = LongEnough | MixedCase | HasDigit | HasSymbol

  const AllCriteria: seq<Criterion> := [LongEnough, MixedCase, HasDigit, HasSymbol]

  predicate Meets(pass: string, c: Criterion) {
    match c
    case LongEnough => |pass| >= MinLength
    case MixedCase => Has(pass, Upper) && Has(pass, Lower)
    case HasDigit => Has(pass, Digit)
    case HasSymbol => Has(pass, Symbol)
  }

  /** How many of the criteria `cs` the password meets. */
  function CountMet(pass: string, cs: seq<Criterion>): (n: nat)
    ensures n <= |cs|
  {
    if |cs| == 0 then 0 else Point(Meets(pass, cs[0])) + CountMet(pass, cs[1..])
  }

  /** A password of at least eight characters scores the number of criteria it meets. */
  lemma LongScoreCountsCriteria(pass: string)
    requires |pass| >= MinLength
    ensures Evaluate(pass) == CountMet(pass, AllCriteria)
  {
    var tail3 := [MixedCase, HasDigit, HasSymbol];
    var tail2 := [HasDigit, HasSymbol];
    var tail1 := [HasSymbol];
    assert AllCriteria[1..] == tail3 && tail3[1..] == tail2 && tail2[1..] == tail1;
    assert CountMet(pass, tail1) == Point(Has(pass, Symbol)) by {
      assert tail1[1..] == [];
    }
    assert CountMet(pass, tail2) == Point(Has(pass, Digit)) + CountMet(pass, tail1);
    assert CountMet(pass, tail3) == Point(Meets(pass, MixedCase)) + CountMet(pass, tail2);
  }

  /** The whole rule against the criteria: 0 for the empty password, 1 for a
      short one whatever its characters, the criteria count otherwise. */
  lemma ScoreByCriteria(pass: string)
    ensures |pass| == 0 ==> Evaluate(pass) == 0
    ensures 0 < |pass| < MinLength ==> Evaluate(pass) == 1
    ensures |pass| >= MinLength ==> Evaluate(pass) == CountMet(pass, AllCriteria)
    ensures |pass| >= MinLength ==> 1 <= Evaluate(pass) <= MaxScore
  {
    if |pass| >= MinLength {
      LongScoreCountsCriteria(pass);
    }
  }

  /** Upper case alone or lower case alone earns nothing: a long password
      earns its case point exactly when it has both. */
  lemma CasePointNeedsBothCases(pass: string)
    requires |pass| >= MinLength
    ensures Evaluate(pass) == 1 + Point(Has(pass, Digit)) + Point(Has(pass, Symbol)) + 1
            <==> Has(pass, Upper) && Has(pass, Lower)
    ensures !Has(pass, Upper) || !Has(pass, Lower) ==> Evaluate(pass) <= MaxScore - 1
  {
  }

  /** A class present in a prefix is present in every extension. */
  lemma HasExtends(p: string, q: string, k: CharClass)
    requires Has(p, k)
    ensures Has(p + q, k)
  {
    var i :| 0 <= i < |p| && InClass(p[i], k);
    assert (p + q)[i] == p[i];
  }

  /** Appending characters never lowers the score. The empty password scores
      0; a short one scores 1 and so does at least its extension; once a
      password is long enough every check is an existence test, which
      appending cannot undo. */
  lemma AppendNeverLowers(p: string, q: string)
    ensures Evaluate(p) <= Evaluate(p + q)
  {
    if |p| >= MinLength {
      forall k: CharClass | Has(p, k)
        ensures Has(p + q, k)
      {
        HasExtends(p, q, k);
      }
    }
  }

  /** Character variety does not order scores: a short password with every
      class scores less than a long one with only two classes. */
  lemma ShortCapIsNotMonotone()
    ensures forall k: CharClass :: Has("Ab1!", k)
    ensures Evaluate("Ab1!") == 1
    ensures !Has("abcdefgh1", Upper) && !Has("abcdefgh1", Symbol)
    ensures Evaluate("abcdefgh1") == 2
  {
    assert InClass("Ab1!"[0], Upper) && InClass("Ab1!"[1], Lower);
    assert InClass("Ab1!"[2], Digit) && InClass("Ab1!"[3], Symbol);
    assert InClass("abcdefgh1"[8], Digit);
    assert !Has("abcdefgh1", Upper) by {
      var s := "abcdefgh1";
      forall i | 0 <= i < |s| ensures !InClass(s[i], Upper) {
        assert s[i] in "abcdefgh1";
      }
    }
    assert !Has("abcdefgh1", Symbol) by {
      var s := "abcdefgh1";
      forall i | 0 <= i < |s| ensures !InClass(s[i], Symbol) {
        assert s[i] in "abcdefgh1";
      }
    }
  }

  /** Upper case with no lower case earns no case point. */
  lemma SingleCaseExample()
    ensures Evaluate("Abcdefg1!") == 4
    ensures Evaluate("ABCDEFG1!") == 3
  {
    assert InClass("Abcdefg1!"[0], Upper) && InClass("Abcdefg1!"[1], Lower);
    assert InClass("Abcdefg1!"[7], Digit) && InClass("Abcdefg1!"[8], Symbol);
    assert InClass("ABCDEFG1!"[7], Digit) && InClass("ABCDEFG1!"[8], Symbol);
    assert !Has("ABCDEFG1!", Lower) by {
      var s := "ABCDEFG1!";
      forall i | 0 <= i < |s| ensures !InClass(s[i], Lower) {
        assert s[i] in "ABCDEFG1!";
      }
    }
  }
}

=== FILE: reset_password_page.dfy ===
/** The reset-password page: a new password of at least eight characters,
    typed twice, is accepted; submitting it shows a spinner, and when the
    simulated request's delay elapses the page always moves to the
    dashboard. */
module ResetPasswordPage {
  import opened Common
  import opened PasswordStrength

  const MinPasswordLength: nat := 8
  const TooShortMessage: string := "Password must be at least 8 characters long."
  const MismatchMessage: string := "Passwords don't match"
  const PasswordChangedTitle: string := "Password has been successfully changed."

  datatype Values = Values(password: string, confirmPassword: string)

  /** The message each field shows after validation. The length rule sits on
      the password field; the equality rule reports on the confirmation
      field. Each rule reports independently of the other. */
  function Validate(v: Values): (errors: map<Field, string>)
    ensures Password in errors <==> |v.password| < MinPasswordLength
    ensures Password in errors ==> errors[Password] == TooShortMessage
    ensures ConfirmPassword in errors <==> v.password != v.confirmPassword
    ensures ConfirmPassword in errors ==> errors[ConfirmPassword] == MismatchMessage
    ensures errors.Keys <= {Password, ConfirmPassword}
  {
    (if |v.password| >= MinPasswordLength then map[] else map[Password := TooShortMessage])
    + (if v.password == v.confirmPassword then map[] else map[ConfirmPassword := MismatchMessage])
  }

  predicate Accepts(v: Values) {
    Validate(v).Keys == {}
  }

  /** The form is accepted exactly when the password has eight characters
      and the confirmation repeats it. */
  lemma Acceptance(v: Values)
    ensures Accepts(v) <==> |v.password| >= MinPasswordLength && v.password == v.confirmPassword
  {
  }

  /** Which of the two boxes holds which copy does not matter: equality
      forces both to be long enough. */
  lemma AcceptanceSymmetric(p: string, c: string)
    ensures Accepts(Values(p, c)) <==> Accepts(Values(c, p))
  {
  }

  /** An accepted new password is never subject to the short-password cap. */
  lemma AcceptedPasswordUncapped(v: Values)
    requires Accepts(v)
    ensures Evaluate(v.password) == CountMet(v.password, AllCriteria)
    ensures Evaluate(v.confirmPassword) == Evaluate(v.password) >= 1
  {
    Acceptance(v);
    LongScoreCountsCriteria(v.password);
  }

  /** Page state. `pending` is true while the simulated request's delay has
      not elapsed. */
  datatype Page = Page(isSubmitting: bool, pending: bool, navigation: Option<string>, toast: Option<Toast>)

  const Initial: Page := Page(false, false, None, None)

  lemma InitialValid()
    ensures Valid(Initial)
  {
  }

  /** The submit handler's synchronous part. */
  function OnSubmit(p: Page, v: Values): (q: Page)
    ensures q.isSubmitting && q.pending
    ensures q.navigation == p.navigation && q.toast == p.toast
  {
    p.(isSubmitting := true, pending := true)
  }

  /** The timer callback: there is no failure branch. */
  function Complete(p: Page): (q: Page)
    ensures !q.isSubmitting && !q.pending
    ensures q.navigation == Some(DashboardPath)
    ensures q.toast == Some(Toast(Success, PasswordChangedTitle))
  {
    p.(isSubmitting := false, toast := Some(Toast(Success, PasswordChangedTitle)),
       pending := false, navigation := Some(DashboardPath))
  }

  /** The submit button: disabled, with a spinner and the text
      "Updating...", exactly while submitting. */
  datatype SubmitButton = SubmitButton(disabled: bool, spinner: bool, text: string)

  function Button(p: Page): (b: SubmitButton)
    ensures b.disabled <==> p.isSubmitting
    ensures b.spinner <==> p.isSubmitting
    ensures b.text == (if p.isSubmitting then "Updating..." else "Update Password")
  {
    SubmitButton(p.isSubmitting, p.isSubmitting, if p.isSubmitting then "Updating..." else "Update Password")
  }

  datatype Event = Submit(values: Values) | DelayElapsed

  /** One event. A submission reaches the handler only when the button is
      enabled and the schema accepts the values. */
  function Step(p: Page, e: Event): (q: Page)
    ensures e.Submit? && (p.isSubmitting || !Accepts(e.values)) ==> q == p
    ensures e.DelayElapsed? && !p.pending ==> q == p
    ensures e.Submit? && !p.isSubmitting && Accepts(e.values) ==> q == OnSubmit(p, e.values)
    ensures e.DelayElapsed? && p.pending ==> q == Complete(p)
  {
    match e
    case Submit(v) =>
      if Button(p).disabled || !Accepts(v) then p else OnSubmit(p, v)
    case DelayElapsed =>
      if p.pending then Complete(p) else p
  }

  /** A request is pending exactly while the button is disabled. */
  predicate Valid(p: Page) {
    p.isSubmitting <==> p.pending
  }

  lemma StepPreservesValid(p: Page, e: Event)
    requires Valid(p)
    ensures Valid(Step(p, e))
    ensures Button(Step(p, e)).disabled <==> Step(p, e).pending
  {
  }

  /** From an idle page, an accepted submission followed by the delay always
      ends on the dashboard with the button enabled again; between the two
      events the button is disabled and the page has not moved. */
  lemma ResetAlwaysSucceeds(p: Page, v: Values)
    requires Valid(p) && !p.isSubmitting
    requires |v.password| >= MinPasswordLength && v.password == v.confirmPassword
    ensures var m := Step(p, Submit(v));
            Button(m).disabled && m.pending && m.navigation == p.navigation
    ensures var q := Step(Step(p, Submit(v)), DelayElapsed);
            && q.navigation == Some(DashboardPath)
            && !Button(q).disabled
            && Valid(q)
  {
  }
}

=== FILE: signup_page.dfy ===
/** The signup page: the form's values are refused with an error toast
    unless the terms-of-service box is ticked; otherwise a simulated request
    starts and always ends on the dashboard. The terms box is disabled while
    a request is in flight. */
module SignUpPage {
  import opened Common
  import AuthForm

  const TermsRequiredTitle: string := "You must agree to the Terms of Service to continue."
  const AccountCreatedTitle: string := "Account created successfully!"

  /** Page state. `pending` is true while the simulated request's delay has
      not elapsed. */
  datatype Page = Page(
    isLoading: bool,
    agreedToTerms: bool,
    pending: bool,
    navigation: Option<string>,
    toast: Option<Toast>)

  const Initial: Page := Page(false, false, false, None, None)

  /** The terms checkbox; it ignores clicks while it is disabled. */
  function SetTerms(p: Page, checked: bool): (q: Page)
    ensures !p.isLoading ==> q.agreedToTerms == checked
    ensures p.isLoading ==> q == p
    ensures q.isLoading == p.isLoading && q.pending == p.pending && q.navigation == p.navigation
  {
    if p.isLoading then p else p.(agreedToTerms := checked)
  }

  /** The submit handler up to its simulated delay: the terms gate, then
      the spinner. */
  function HandleSignUp(p: Page, v: AuthForm.Values): (q: Page)
    ensures !p.agreedToTerms ==> q.toast == Some(Toast(Failure, TermsRequiredTitle))
    ensures !p.agreedToTerms ==> q.isLoading == p.isLoading && q.pending == p.pending && q.navigation == p.navigation
    ensures p.agreedToTerms ==> q.isLoading && q.pending && q.navigation == p.navigation && q.toast == p.toast
    ensures q.agreedToTerms == p.agreedToTerms
  {
    if !p.agreedToTerms then
      p.(toast := Some(Toast(Failure, TermsRequiredTitle)))
    else
      p.(isLoading := true, pending := true)
  }

  /** The handler after its delay: the simulated request always succeeds. */
  function ResumeSignUp(p: Page): (q: Page)
    ensures !q.isLoading && !q.pending
    ensures q.navigation == Some(DashboardPath)
    ensures q.toast == Some(Toast(Success, AccountCreatedTitle))
    ensures q.agreedToTerms == p.agreedToTerms
  {
    p.(toast := Some(Toast(Success, AccountCreatedTitle)), isLoading := false, pending := false,
       navigation := Some(DashboardPath))
  }

  datatype Event = CheckTerms(checked: bool) | Submit(values: AuthForm.Values) | DelayElapsed

  /** One event. A submission reaches the handler only when the submit button
      is enabled and the e-mail and the signup schema are accepted. */
  function Step(p: Page, e: Event, emailValid: string -> bool): (q: Page)
    ensures e.Submit? && (p.isLoading || !AuthForm.Accepts(AuthForm.Signup, e.values, emailValid)) ==> q == p
    ensures e.DelayElapsed? && !p.pending ==> q == p
    ensures e.Submit? && !p.isLoading && AuthForm.Accepts(AuthForm.Signup, e.values, emailValid)
            ==> q == HandleSignUp(p, e.values)
    ensures e.DelayElapsed? && p.pending ==> q == ResumeSignUp(p)
  {
    match e
    case CheckTerms(checked) => SetTerms(p, checked)
    case Submit(v) =>
      if AuthForm.Render(AuthForm.Form(AuthForm.Signup, false, p.isLoading, v.password)).submitDisabled then p
      else if !AuthForm.Accepts(AuthForm.Signup, v, emailValid) then p
      else HandleSignUp(p, v)
    case DelayElapsed =>
      if p.pending then ResumeSignUp(p) else p
  }

  /** The page's invariant: a request is pending exactly while the spinner
      shows, and only ever with the terms agreed. */
  predicate Valid(p: Page) {
    (p.isLoading <==> p.pending) && (p.isLoading ==> p.agreedToTerms)
  }

  lemma InitialValid()
    ensures Valid(Initial)
  {
  }

  lemma StepPreservesValid(p: Page, e: Event, emailValid: string -> bool)
    requires Valid(p)
    ensures Valid(Step(p, e, emailValid))
  {
  }

  /** The terms cannot change while a request is in flight. */
  lemma TermsFrozenWhileLoading(p: Page, e: Event, emailValid: string -> bool)
    requires p.isLoading && !e.DelayElapsed?
    ensures Step(p, e, emailValid).agreedToTerms == p.agreedToTerms
    ensures Step(p, e, emailValid).isLoading
  {
  }

  /** The terms gate is the only failure: from an idle page, submitting
      accepted values leads to the dashboard exactly when the terms are
      agreed; without them the page stays idle with an error toast. With the
      terms agreed the spinner shows between the two events. */
  lemma SignUpAttempt(p: Page, v: AuthForm.Values, emailValid: string -> bool)
    requires Valid(p) && !p.isLoading && p.navigation == None
    requires AuthForm.Accepts(AuthForm.Signup, v, emailValid)
    ensures var m := Step(p, Submit(v), emailValid);
            (m.isLoading <==> p.agreedToTerms) && m.navigation == p.navigation
    ensures var q := Step(Step(p, Submit(v), emailValid), DelayElapsed, emailValid);
            && Valid(q)
            && !q.isLoading
            && (q.navigation == Some(DashboardPath) <==> p.agreedToTerms)
            && (!p.agreedToTerms ==> q.navigation == None && q.toast == Some(Toast(Failure, TermsRequiredTitle)))
  {
  }
}

=== FILE: strength_indicator.dfy ===
/** What the password-strength indicator shows for a password: four bars,
    of which the first `score` are filled in the colour of the score, and a
    caption naming the score, shown only when the score is positive. */
module StrengthIndicator {
  import opened Common
  import opened PasswordStrength

  /** A score the heuristic can produce. */
  type Score = s: nat | s <= MaxScore

  const BarCount: nat := 4

  /** Lookup tables indexed by score; entry 0 belongs to the empty password. */
  const Labels: seq<string> := ["", "Weak", "Medium", "Good", "Strong"]
  const BarColors: seq<string> := ["", "bg-red-500", "bg-yellow-500", "bg-blue-500", "bg-green-500"]
  const TextColors: seq<string> := ["", "text-red-500", "text-yellow-500", "text-blue-500", "text-green-500"]

  /** One bar of the meter. */
  datatype Bar = Filled(color: string) | Unfilled

  /** The caption under the bars: the label text and its colour. */
  datatype Caption = Caption(text: string, color: string)

  datatype Indicator = Indicator(bars: seq<Bar>, caption: Option<Caption>)

  /** The label of a score. */
  function Label(s: Score): (text: string)
    ensures s > 0 ==> text != ""
  {
    Labels[s]
  }

  /** The bars for a score: bar number `i + 1` is filled when the score
      reaches it. */
  function Bars(s: Score): (bars: seq<Bar>)
    ensures |bars| == BarCount
    ensures forall i :: 0 <= i < BarCount ==> (bars[i].Filled? <==> s >= i + 1)
    ensures forall i :: 0 <= i < BarCount && bars[i].Filled? ==> bars[i].color == BarColors[s]
  {
    seq(BarCount, i requires 0 <= i < BarCount => if s >= i + 1 then Filled(BarColors[s]) else Unfilled)
  }

  /** The indicator rendered for a password. */
  function Render(password: string): (v: Indicator)
    ensures |v.bars| == BarCount
    ensures forall i :: 0 <= i < BarCount ==> (v.bars[i].Filled? <==> Evaluate(password) >= i + 1)
    ensures v.caption.Some? <==> password != ""
    ensures v.caption.Some? ==> v.caption.value.text == Labels[Evaluate(password)]
    ensures v.caption.Some? ==> v.caption.value.color == TextColors[Evaluate(password)]
  {
    var strength: Score := Evaluate(password);
    Indicator(
      Bars(strength),
      if strength > 0 then Some(Caption(Label(strength), TextColors[strength])) else None)
  }

  /** Number of filled bars. */
  function CountFilled(bars: seq<Bar>): (n: nat)
    ensures n <= |bars|
  {
    if |bars| == 0 then 0
    else CountFilled(bars[..|bars| - 1]) + (if bars[|bars| - 1].Filled? then 1 else 0)
  }

  /** The first `n` bars of the meter for score `s` hold `min(s, n)` filled ones. */
  lemma {:induction false} FilledPrefix(s: Score, n: nat)
    requires n <= BarCount
    ensures CountFilled(Bars(s)[..n]) == if s < n then s else n
  {
    if n > 0 {
      FilledPrefix(s, n - 1);
      assert Bars(s)[..n][..n - 1] == Bars(s)[..n - 1];
    }
  }

  /** The meter reads the score: the number of filled bars is the score itself. */
  lemma FilledBarsAreScore(password: string)
    ensures CountFilled(Render(password).bars) == Evaluate(password)
  {
    var s: Score := Evaluate(password);
    FilledPrefix(s, BarCount);
    assert Bars(s)[..BarCount] == Bars(s);
  }

  /** The caption names the score unambiguously: different scores have different labels. */
  lemma LabelsDistinguishScores(s: Score, t: Score)
    requires Label(s) == Label(t)
    ensures s == t
  {
  }
}
